=== FILE: README.md ===
# typo3-json-logger, modelled in Dafny

This project models the core of a TYPO3 log writer that emits one JSON object per line. The core has two parts.

- **The context store** (`LogContext`) is a process-wide, insertion-ordered map from tag name to string. It offers `add`, `getAll`, `remove` and `reset`. It is modelled as the class `ContextStore.LogContext`. Its one field, `information`, is an association list that the methods reassign. `Valid()` keeps the keys unique, as in a PHP array.
- **The writer** (`JsonWriter::writeLog`) turns a log record into a JSON line. First it folds a `\Throwable` found under `exception` into the message. It then builds the payload by merging, in order: the context-store tags, the fixed fields (`date`, `level`, `requestId`, `component`, `message`, `context`), the OpenTelemetry tags and the `X-Request-Id` header. It serializes the payload, falling back to a reduced payload, and appends the line to the log file. When that append fails, it either writes to the backend user's system log or throws.
  - The pure steps are functions in module `JsonWriter`, and `WriteLogEffect` composes them.
  - The imperative method `JsonWriter.JsonWriter.WriteLog` performs the same steps on local variables and on a `Host` object. `Host` holds the error-reporting level, the log file's text and the system-log writes.

PHP arrays with string keys are modelled in `OrderedMap` as association lists:
- `Put` is `$a[$k] = $v`. It overwrites in place or appends.
- `Delete` is `unset`.
- `Merge` is the spread `[...$a, ...$b]`.

`Timestamp` models how the record's creation time becomes text and is parsed back with the `U.u` format.

Foreign code is passed in as functions in `Collaborators`:
- the exception formatting;
- the `(string)` cast of a `\Throwable`;
- `interpolate`;
- the Symfony serializer, as a function that returns JSON text or says which kind of throwable it threw;
- the date formatting.

Ambient state is passed in as the value `Ambient`:
- the OpenTelemetry span;
- `$GLOBALS['TYPO3_REQUEST']`;
- the backend user;
- whether `fwrite` succeeds;
- what the system-log write throws;
- the current time.

The model keeps two behaviours of the code that a reader might not expect:
- The reduced `context` keeps `exception` only when that entry is truthy in PHP's sense (line 89), not whenever one existed.
- Only `\Exception` is caught, at lines 87 and 101. An `\Error` from the serializer or from the system-log write escapes `writeLog`.

## Model

| member | source | states |
|---|---|---|
| `ContextStore.LogContext.constructor` | src/LogContext.php:12 | a new store is empty and valid |
| `ContextStore.LogContext.Add` | src/LogContext.php:18-21 | the key now maps to the value, every other key keeps its value, keys stay unique, and the list is `Put` of the old one |
| `ContextStore.LogContext.GetAll` | src/LogContext.php:23-26 | returns the whole store with unique keys and changes nothing |
| `ContextStore.LogContext.Remove` | src/LogContext.php:28-31 | the key is absent afterwards, every other key keeps its value, keys stay unique |
| `ContextStore.LogContext.Reset` | src/LogContext.php:33-36 | the store is empty afterwards, whatever it held |
| `ContextStore.SnapshotSurvivesUpdates` | src/LogContext.php:23-26 | after the fixed sequence `GetAll`, `Add`, `Remove`, `Reset`, the snapshot equals the store as it was before the calls, and the store is empty. The snapshot survives only because a sequence is a value, as a PHP array returned by value is |
| `OrderedMap.Put` | src/LogContext.php:20 | an assignment adds at most one entry and keeps every existing key at its position |
| `OrderedMap.PutLookup` | src/LogContext.php:20 | after an assignment the key maps to the new value and every other key to its old value |
| `OrderedMap.PutShape` | src/LogContext.php:20 | assigning to a present key overwrites it at its own position without growing the array; a new key is appended at the end |
| `OrderedMap.PutPut` | src/LogContext.php:20 | assigning a key twice equals assigning the second value once (`add("a","1"); add("a","2")` leaves `"2"`) |
| `OrderedMap.PutUnique` | src/LogContext.php:20 | an assignment keeps keys unique |
| `OrderedMap.Delete` | src/LogContext.php:30 | `unset` adds no entry and leaves no entry for the key |
| `OrderedMap.DeleteLookup` | src/LogContext.php:30 | after `unset` the key is absent and every other key keeps its value |
| `OrderedMap.DeleteAbsent` | src/LogContext.php:30 | unsetting an absent key leaves the array unchanged |
| `OrderedMap.DeleteAt` | src/LogContext.php:30 | unsetting a present key removes exactly its entry; the others keep their relative order |
| `OrderedMap.DeleteIdempotent` | src/LogContext.php:30 | unsetting twice equals unsetting once |
| `OrderedMap.DeleteUnique` | src/LogContext.php:30 | unsetting keeps keys unique |
| `OrderedMap.MergeLookup` | src/JsonWriter.php:62-71 | in a spread merge a key of the later array takes the later value; any other key keeps the earlier value |
| `OrderedMap.Merge` | src/JsonWriter.php:62-71 | a spread merge keeps every key of the earlier array at its position, and adds at most one entry per entry of the later array |
| `OrderedMap.MergeUnique` | src/JsonWriter.php:62-71 | a merge keeps keys unique |
| `PhpValue.Truthy` | src/JsonWriter.php:89 | a value is falsy exactly when it is null, `false`, `0`, `""`, `"0"` or the empty array |
| `PhpValue.UpperAscii` | src/JsonWriter.php:65 | `strtoupper` keeps the length |
| `PhpValue.UpperAsciiSpec` | src/JsonWriter.php:65 | each lower-case ASCII letter of the level becomes its upper-case letter (32 code points lower), and every other character is kept; no lower-case letter is left |
| `PhpValue.UpperAsciiIdempotent` | src/JsonWriter.php:65 | upper-casing twice equals upper-casing once |
| `Timestamp.ExactDecimalText` | src/JsonWriter.php:141 | the exact decimal rendering of the creation time has a dot exactly when the fraction is non-zero, and then no trailing zero |
| `Timestamp.FixedMicroText` | src/JsonWriter.php:141 | the six-digit rendering is digits, a dot and exactly six digits |
| `Timestamp.SplitAtDot` | src/JsonWriter.php:141 | the text splits at its first dot, and fails exactly when it has none |
| `Timestamp.ParseUnixMicros` | src/JsonWriter.php:141 | `U.u` fails on a text without a dot, and a text that parses starts and ends with a digit |
| `Timestamp.CreationDate` | src/JsonWriter.php:138-146 | the date is the formatted parse of the creation text, or the current time when the parse fails; no failure escapes |
| `Timestamp.ParseDigitsDotDigits` | src/JsonWriter.php:141 | `U.u` reads digits, a dot and one to six digits as seconds and a fraction scaled to microseconds |
| `Timestamp.FixedMicroTextRoundTrip` | src/JsonWriter.php:141 | the six-digit rendering of a creation time parses back to that time |
| `Timestamp.ExactDecimalTextWholeSecond` | src/JsonWriter.php:141 | the text of a whole second has no dot (PHP's cast writes it so at any precision), and the `U.u` parse fails |
| `Timestamp.ExactDecimalTextFraction` | src/JsonWriter.php:141 | the exact decimal rendering `ExactDecimalText` of a time with a non-zero fraction parses back to that time |
| `Timestamp.ExactDecimalTextParse` | src/JsonWriter.php:141 | the exact decimal rendering `ExactDecimalText` parses back exactly when the fraction is non-zero |
| `Timestamp.CreationDateOfFixedMicroText` | src/JsonWriter.php:138-146 | with the six-digit rendering, the date is always the record's own creation time |
| `Timestamp.CreationDateOfWholeSecond` | src/JsonWriter.php:141-145 | with the cast as written, a record created on a whole second is dated with the current time |
| `JsonWriter.ThrowableIn` | src/JsonWriter.php:55 | a `\Throwable` is found exactly when `exception` is present and holds one, and it is that entry |
| `JsonWriter.FoldException` | src/JsonWriter.php:50-59 | the message is only ever extended, the context's keys keep their positions, and without a `\Throwable` under `exception` both pass through |
| `JsonWriter.FoldExceptionSpec` | src/JsonWriter.php:50-59 | with a `\Throwable` under `exception`, the message gains its rendering, the entry becomes its string form, and the key order and every other entry are unchanged; otherwise message and context pass through |
| `JsonWriter.TracingTags` | src/JsonWriter.php:120-136 | no tags without OpenTelemetry or a valid span; otherwise distinct keys holding non-empty identifiers |
| `JsonWriter.RequestIdHeader` | src/JsonWriter.php:73-77 | a header value exists exactly for a `ServerRequest` with the header; it is the first value, or `""` for an empty list |
| `JsonWriter.TracingTagsSpec` | src/JsonWriter.php:120-136 | tracing tags are empty without OpenTelemetry or a valid span; otherwise they are exactly `traceId` and `spanId`, both non-empty |
| `JsonWriter.TracingTagsLookup` | src/JsonWriter.php:132-135 | no key other than `traceId` and `spanId` comes from the tracing tags |
| `JsonWriter.LiftTags` | src/JsonWriter.php:63 | each tag becomes a string entry under its key, at its own position |
| `JsonWriter.LiftTagsSpec` | src/JsonWriter.php:63 | the tags enter the payload as strings, under the same keys and in the same order |
| `JsonWriter.FixedFields` | src/JsonWriter.php:64-69 | the fixed fields have exactly the keys `date`, `level`, `requestId`, `component`, `message`, `context`, in that order, once each |
| `JsonWriter.FixedFieldsLookup` | src/JsonWriter.php:64-69 | the fixed fields hold exactly the six fixed keys, each with its value |
| `JsonWriter.BuildPayloadLookup` | src/JsonWriter.php:61-77 | precedence: the header wins over the tracing tags, which win over the fixed fields, which win over the context-store tags |
| `JsonWriter.BuildPayload` | src/JsonWriter.php:62-77 | the context-store tags open the payload in their own order, and a header value is what `X-Request-Id` holds |
| `JsonWriter.RecordDate` | src/JsonWriter.php:138-146 | with the corrected six-digit rendering, `date` is always the formatted creation time |
| `JsonWriter.AsWrittenRecordDate` | src/JsonWriter.php:141-145 | in the exact-decimal rendering of line 141, a record created on a whole second is dated with the current time |
| `JsonWriter.AsWrittenDateDiffersOnWholeSeconds` | src/JsonWriter.php:141-145 | the exact-decimal rendering of line 141 gives the same date as `RecordDate`, except that a record created on a whole second is dated with the current time |
| `JsonWriter.RecordPayload` | src/JsonWriter.php:61-77 | the payload opens with the context-store tags in their order, and holds the request's header value under `X-Request-Id` when there is one |
| `JsonWriter.RecordPayloadFields` | src/JsonWriter.php:62-69 | the payload always has `date`, `level` (upper-cased), `requestId`, `component`, `message` (interpolated) and `context`, whatever the tags hold. `date` is the formatted creation time, which is the corrected rendering (see "## Left out") |
| `JsonWriter.RecordPayloadTag` | src/JsonWriter.php:61-71 | a tag whose key collides with no later source appears in the payload unchanged |
| `JsonWriter.RecordPayloadRequestId` | src/JsonWriter.php:73-77 | `X-Request-Id` is the first header value of a `ServerRequest` that has the header (`""` for an empty list); otherwise it comes only from a tag of that name |
| `JsonWriter.RecordPayloadUnique` | src/JsonWriter.php:62-77 | the payload has unique keys and always a `context` key |
| `JsonWriter.ExceptionEntry` | src/JsonWriter.php:89 | `$context['exception']` is null when the key is missing, and otherwise the stored entry |
| `JsonWriter.ReducedContext` | src/JsonWriter.php:88-91 | the reduced context holds at most one entry, and that entry is a truthy `exception` |
| `JsonWriter.ReducedPayload` | src/JsonWriter.php:88-91 | the reduced payload has the reduced context under `context`, and every other key keeps its value |
| `JsonWriter.ReducedContextSpec` | src/JsonWriter.php:88-91 | the reduced context is empty, or holds only `exception`; it holds it exactly when the entry exists and is truthy |
| `JsonWriter.ReducedPayloadShape` | src/JsonWriter.php:84-91 | the reduced payload equals the payload except that `context` is replaced at the same position |
| `JsonWriter.TwoTierSerialize` | src/JsonWriter.php:84-93 | the written JSON is the serializer's output for the kept payload; the kept payload is the full payload unless serializing it threw an `\Exception`; the serialization escapes exactly on an `\Error` or a failed second attempt, and the throwable that escapes is that `\Error` or the second attempt's throwable |
| `JsonWriter.SerializeQuietlyAsWritten` | src/JsonWriter.php:82-95 | the level is restored when serialization succeeds and left at `E_ERROR` when it escapes |
| `JsonWriter.ErrorReportingLeak` | src/JsonWriter.php:82-95 | a serializer that always throws leaves the process at `E_ERROR` instead of `E_ALL` |
| `JsonWriter.SerializeQuietly` | src/JsonWriter.php:82-95 | serializes like `TwoTierSerialize` and leaves the error-reporting level as it found it, on every path |
| `JsonWriter.Host.constructor` | src/JsonWriter.php:82-97 | the process state starts at the given error-reporting level, with an empty log file and no system-log writes |
| `JsonWriter.SinkStep` | src/JsonWriter.php:97-108 | the line is appended exactly when `fwrite` succeeds, and then nothing is audited; the `RuntimeException` is thrown exactly when the append fails with no backend user; only an `\Error` from the audit write escapes |
| `JsonWriter.WriteLogEffect` | src/JsonWriter.php:48-109 | one call appends at most one line, ending in a line feed, or makes at most one audit write, never both; a throwable from the serializer leaves both untouched |
| `JsonWriter.WriteSucceeded` | src/JsonWriter.php:97-108 | a successful append writes the serializer's text for the kept payload plus one line feed, makes no audit write, and returns |
| `JsonWriter.WriteFailedWithoutBackendUser` | src/JsonWriter.php:97-105 | a failed append with no backend user throws "Could not write log record to log file" with code 1697542908 and writes nothing |
| `JsonWriter.WriteFailedWithBackendUser` | src/JsonWriter.php:97-102 | a failed append with a backend user makes one audit write of the kept payload; `writeLog` returns exactly when that write raises no `\Error` |
| `JsonWriter.DegradedRecordIsWritten` | src/JsonWriter.php:84-97 | content rejected with an `\Exception` is still written, with `context` reduced and every other field unchanged, when the reduced payload serializes |
| `JsonWriter.JsonWriter.constructor` | src/JsonWriter.php:34-39 | the writer holds the given context store |
| `JsonWriter.JsonWriter.WriteLog` | src/JsonWriter.php:48-109 | the outcome, the appended text and the audit writes are those of `WriteLogEffect` for the store's tags at call time; the error-reporting level is unchanged afterwards |

## Left out

- Concurrency and the singleton lifetime of `LogContext` are not modelled. The context store has no locking, and the model is sequential, so it says nothing about concurrent `add` and `remove` calls.
- The `fwrite` call and the file handles inherited from TYPO3's `FileWriter` are not modelled. The append's success is an input, and the log file is the text in `Host.logFile`. A failed `fwrite` is taken to append nothing. Line 97 tests only `=== false`, so a short write that stores part of the line counts as success; the model treats success as all-or-nothing, which is why `JsonWriter.WriteLogEffect` can promise that an appended line ends in a line feed.
- The Symfony serializer is not modelled. It is the function `serialize`, which returns JSON text or the kind of throwable. What `E_ERROR` suppresses inside it is not modelled, only the level's value.
- The OpenTelemetry lookups (`class_exists`, `Context::getCurrent`, `Span::fromContext`) are not modelled. The input is `Option<SpanContext>`, where `None` means OpenTelemetry is absent. `SpanIsValid` follows OpenTelemetry's rule for valid ids; that library is not part of this model.
- TYPO3's `ServerRequest` header lookup, which is case-insensitive, is not part of this model. The request gives the `x-request-id` values directly.
- `BackendUserAuthentication::writelog` is recorded as an attempted audit write with its details text and payload. Its classification arguments (type, action, error level, number 0) are not modelled. So is whatever it changes before it throws.
- Calendar formatting, the Europe/Berlin zone and the wall clock are not modelled. They are the function `formatDate` and the string `now`.
- The `U.u` parser is modelled on the texts it receives here: digits, a dot and digits. The real parser also accepts signs and skips leading non-digits; that leniency is not modelled.
- `Timestamp.Created` treats the creation time as an exact decimal with microsecond resolution. PHP's rounding of a float to 14 significant digits when it converts the float to a string is not modelled.
- `Timestamp.ExactDecimalText` is the exact decimal rendering of the creation time, not PHP's `(string)` cast. At PHP's default precision of 14 the cast gives `"1700000000.1235"` for `1700000000.123456` and `"1700000000"` (no dot) for `1700000000.00001`, so "a dot exactly when the fraction is non-zero" holds only of this rendering.
- `JsonWriter.AsWrittenDateDiffersOnWholeSeconds` is proved of the exact-decimal rendering of line 141. With PHP's precision-14 cast, line 141 also dates `1700000000.123456` as `.123500` instead of `.123456`, and dates `1700000000.00001` with the current time, so the real code differs from `RecordDate` for more records than the whole seconds this lemma names.
- `Timestamp.ExactDecimalTextFraction` is proved of the exact decimal rendering `ExactDecimalText`, not of PHP's cast. At PHP's default precision of 14, a ten-digit seconds value keeps only four fraction digits: `1700000000.123456` becomes `"1700000000.1235"`, which parses to 123500 microseconds, not back to the time.
- `Timestamp.ExactDecimalTextParse` is proved of the exact decimal rendering as well. At precision 14 a non-zero fraction that rounds away, such as `1700000000.00001`, is also written without a dot, so the parse fails for more times than the whole seconds this lemma names.
- `JsonWriter.RecordPayloadFields`, like `JsonWriter.RecordPayload` and `JsonWriter.WriteLogEffect`, takes `date` from the corrected rendering `RecordDate`. The exact-decimal rendering of line 141 is `JsonWriter.AsWrittenRecordDate`, which differs from `RecordDate` only for a record created on a whole second (`JsonWriter.AsWrittenDateDiffersOnWholeSeconds`); PHP's own cast differs more often, as the lines for `Timestamp.ExactDecimalText` and `JsonWriter.AsWrittenDateDiffersOnWholeSeconds` say. So the payload lemmas do not show line 141's fallback to the current time.
- `interpolate`, `formatException` and the `(string)` cast of a `\Throwable` come from the parent class and PHP. They are the uninterpreted functions in `Collaborators`.
- `ContextStore.LogContext.Add` takes the value already in its string form. The `(string)$value` cast is not modelled, including the `\Error` for an object without `__toString`.
- `OrderedMap` keys are strings. PHP stores a decimal-integer string key as an integer, and the spread `...$tags` renumbers integer keys. So a tag named `"42"` would reach the payload under a renumbered key. That is not modelled.
- Floats and integer keys inside a record's context are not modelled in `PhpValue.Value`.
- `JsonWriter.JsonWriter.WriteLog` uses the corrected date rendering and the corrected restore of the error-reporting level, so it does not reproduce the two defects under Findings. Those defects are modelled in the as-written members named there.

## Findings

| source | as written | input that shows it | evidently intended | confidence | as-written member | corrected member |
|---|---|---|---|---|---|---|
| src/JsonWriter.php:82-95 | `error_reporting(E_ERROR)` at line 83 is undone only at line 95. A throwable escaping the second serialization (line 92), or an `\Error` from the first (line 86), skips line 95 and leaves the whole process at `E_ERROR` | a serializer that throws an `\Exception` for every payload, starting from `E_ALL` (`JsonWriter.ErrorReportingLeak`) | restore the previous level on every path, as a `finally` block would | medium, not executed | `JsonWriter.SerializeQuietlyAsWritten` | `JsonWriter.SerializeQuietly` |
| src/JsonWriter.php:141 | `(string)$record->getCreated()` writes a float with a zero fraction without a dot (at PHP's default precision of 14, also one whose fraction rounds away), so `createFromFormat('U.u', …)` fails, and `date` becomes the current Berlin time instead of the record's time | a record created at `1700000000.0` (`Timestamp.CreationDateOfWholeSecond`) | every record dated with its own creation time, e.g. by rendering it with `sprintf('%.6F', …)` | medium, not executed | `Timestamp.ExactDecimalTextWholeSecond` | `Timestamp.FixedMicroTextRoundTrip` |

=== FILE: json_writer.dfy ===
/**
 * The JSON log writer: turns one log record, the context store's tags and the
 * ambient tracing span and request into a flat payload, serializes it with a
 * reduced fallback, and appends it as one line to the log file, reporting a
 * failed write to the backend user's system log or to the caller.
 */
module JsonWriter {
  import opened Wrappers
  import opened OrderedMap
  import opened PhpValue
  import opened Timestamp
  import opened ContextStore

  const ExceptionKey := "exception"
  const RequestIdKey := "X-Request-Id"
  /** The keys `writeLog` always writes itself, in the order it writes them. */
  const FixedKeys := ["date", "level", "requestId", "component", "message", "context"]

  /** PHP's `E_ERROR` and `E_ALL` error-reporting levels. */
  const E_ERROR := 1
  const E_ALL := 32767

  const WriteFailureMessage := "Could not write log record to log file"
  const WriteFailureCode := 1697542908

  /** The parts of TYPO3's `LogRecord` that `writeLog` reads. */
  datatype LogRecord = LogRecord(
    created: Created,
    level: string,
    message: string,
    data: Context,
    requestId: string,
    component: string)

  /** The identifiers of the current OpenTelemetry span. */
  datatype SpanContext = SpanContext(traceId: string, spanId: string)

  /** `$GLOBALS['TYPO3_REQUEST']`; for a `ServerRequest`, its `x-request-id` header values if it has one. */
  datatype Request = NoRequest | OtherRequest | ServerRequest(requestIdHeader: Option<seq<string>>)

  /** What a foreign call threw: an `\Exception`, or an `\Error` (which `catch (\Exception)` does not catch). */
  datatype Raised = ExceptionRaised | ErrorRaised

  /** The serializer's answer for one payload. */
  datatype Encoding = Json(text: string) | Throws(raised: Raised)

  /** Code this model does not look inside, passed in as functions. */
  datatype Collaborators = Collaborators(
    formatException: Throwable -> string,   // the parent writer's `formatException`
    throwableText: Throwable -> string,     // `(string)$throwable`
    interpolate: (string, Context) -> string,
    serialize: Payload -> Encoding,         // Symfony's JSON serializer
    formatDate: Created -> string)          // `format('Y-m-d\TH:i:s.uO')`

  /** The ambient state `writeLog` consults. */
  datatype Ambient = Ambient(
    span: Option<SpanContext>,   // None when OpenTelemetry is not installed
    request: Request,
    backendUser: bool,           // `$GLOBALS['BE_USER']` is a BackendUserAuthentication
    fwriteSucceeds: bool,
    auditRaises: Option<Raised>, // what `writelog` on the backend user throws, if anything
    now: string)                 // the current time in Europe/Berlin, formatted

  datatype SerializeResult = Encoded(json: string, safePayload: Payload) | Escaped(raised: Raised)

  /** Where an uncaught throwable left `writeLog`. */
  datatype Site = Serializer | AuditWrite

  datatype Outcome =
    | Returned
    | WriteFailed(message: string, code: int)   // the `RuntimeException` thrown at line 104
    | Uncaught(raised: Raised, site: Site)

  /** One call to the backend user's `writelog`. */
  datatype AuditEntry = AuditEntry(details: string, data: Payload)

  /** What one call does outside itself: its outcome, the log-file text and the audit writes. */
  datatype Effect = Effect(outcome: Outcome, appended: string, audited: seq<AuditEntry>)

  // ----- exception folding -----

  /**
   * `isset($context['exception']) && $context['exception'] instanceof \Throwable`:
   * the entry, when it is present and a `\Throwable`.
   */
  function ThrowableIn(context: Context): (r: Option<Throwable>)
    ensures r.Some? <==> Lookup(context, ExceptionKey).Some? && Lookup(context, ExceptionKey).value.VThrowable?
    ensures r.Some? ==> Lookup(context, ExceptionKey) == Some(VThrowable(r.value))
  {
    match Lookup<Value>(context, ExceptionKey)
    case Some(VThrowable(e)) => Some(e)
    case _ => None
  }

  /**
   * Folds a `\Throwable` under `exception` into the message and replaces it by its
   * string form: the message is only ever extended, the context's keys keep their
   * positions, and without a `\Throwable` both pass through.
   */
  function FoldException(message: string, context: Context, io: Collaborators): (r: (string, Context))
    ensures message <= r.0
    ensures |r.1| >= |context|
    ensures forall i :: 0 <= i < |context| ==> r.1[i].0 == context[i].0
    ensures ThrowableIn(context).None? ==> r == (message, context)
  {
    if context == [] then (message, context)
    else match ThrowableIn(context)
      case Some(e) => (message + io.formatException(e), Put(context, ExceptionKey, VStr(io.throwableText(e))))
      case None => (message, context)
  }

  /**
   * With a `\Throwable` under `exception`, the message gains its rendering, the entry
   * becomes its string form, and every other entry and the key order stay as they
   * were; otherwise message and context pass through unchanged.
   */
  lemma FoldExceptionSpec(message: string, context: Context, io: Collaborators)
    requires UniqueKeys(context)
    ensures var (m, c) := FoldException(message, context, io);
      match ThrowableIn(context)
      case Some(e) =>
        && m == message + io.formatException(e)
        && Lookup(c, ExceptionKey) == Some(VStr(io.throwableText(e)))
        && Keys(c) == Keys(context)
        && (forall k :: k != ExceptionKey ==> Lookup(c, k) == Lookup(context, k))
      case None => m == message && c == context
  {
    if ThrowableIn(context).Some? {
      LookupNone(context, ExceptionKey);
      PutShape(context, ExceptionKey, VStr(io.throwableText(ThrowableIn(context).value)));
      forall k ensures Lookup(FoldException(message, context, io).1, k) ==
                       if k == ExceptionKey then Some(VStr(io.throwableText(ThrowableIn(context).value)))
                       else Lookup(context, k) {
        PutLookup(context, ExceptionKey, VStr(io.throwableText(ThrowableIn(context).value)), k);
      }
    }
  }

  // ----- tracing and the correlation header -----

  predicate IsHexDigit(c: char)
  {
    '0' <= c <= '9' || 'a' <= c <= 'f' || 'A' <= c <= 'F'
  }

  /** An OpenTelemetry identifier: `length` hex digits, not all zero. */
  predicate IsValidId(id: string, length: nat)
  {
    && |id| == length
    && (forall i :: 0 <= i < |id| ==> IsHexDigit(id[i]))
    && (exists i :: 0 <= i < |id| && id[i] != '0')
  }

  /** `SpanContext::isValid()`: a 32-digit trace id and a 16-digit span id. */
  predicate SpanIsValid(span: SpanContext)
  {
    IsValidId(span.traceId, 32) && IsValidId(span.spanId, 16)
  }

  /**
   * `getLogTagsForActiveTracingSpan`: no tags without a valid span, and otherwise
   * distinct keys holding non-empty identifiers.
   */
  function TracingTags(span: Option<SpanContext>): (t: Payload)
    ensures t == [] <==> span.None? || !SpanIsValid(span.value)
    ensures UniqueKeys(t)
    ensures forall i :: 0 <= i < |t| ==> t[i].1.VStr? && t[i].1.s != ""
  {
    match span
    case None => []
    case Some(sc) =>
      if !SpanIsValid(sc) then [] else [("traceId", VStr(sc.traceId)), ("spanId", VStr(sc.spanId))]
  }

  /**
   * The tracing tags are empty without OpenTelemetry or without a valid span;
   * otherwise they are exactly `traceId` and `spanId`, neither of them empty.
   */
  lemma TracingTagsSpec(span: Option<SpanContext>)
    ensures TracingTags(span) == [] <==> span.None? || !SpanIsValid(span.value)
    ensures TracingTags(span) != [] ==>
              && Keys(TracingTags(span)) == ["traceId", "spanId"]
              && Lookup(TracingTags(span), "traceId") == Some(VStr(span.value.traceId))
              && Lookup(TracingTags(span), "spanId") == Some(VStr(span.value.spanId))
              && span.value.traceId != [] && span.value.spanId != []
  {
  }

  /** Only `traceId` and `spanId` can come from the tracing tags. */
  lemma TracingTagsLookup(span: Option<SpanContext>, k: string)
    requires k != "traceId" && k != "spanId"
    ensures Lookup(TracingTags(span), k) == None
  {
    LookupNone(TracingTags(span), k);
  }

  /**
   * The `X-Request-Id` value: present exactly for a `ServerRequest` with the header,
   * and then its first value, or `""` when it has none (`(string)false`).
   */
  function RequestIdHeader(request: Request): (h: Option<string>)
    ensures h.Some? <==> request.ServerRequest? && request.requestIdHeader.Some?
    ensures h.Some? && request.requestIdHeader.value != [] ==> h.value == request.requestIdHeader.value[0]
    ensures h.Some? && request.requestIdHeader.value == [] ==> h.value == ""
  {
    match request
    case ServerRequest(Some(values)) => Some(if values == [] then "" else values[0])
    case _ => None
  }

  // ----- payload assembly -----

  /** `...$tags`: each tag becomes a string entry, in place. */
  function LiftTags(tags: seq<(string, string)>): (r: Payload)
    ensures |r| == |tags|
    ensures forall i :: 0 <= i < |tags| ==> r[i] == (tags[i].0, VStr(tags[i].1))
  {
    if tags == [] then [] else [(tags[0].0, VStr(tags[0].1))] + LiftTags(tags[1..])
  }

  /** Tags enter the payload as strings, under the same keys and in the same order. */
  lemma {:induction false} LiftTagsSpec(tags: seq<(string, string)>)
    ensures Keys(LiftTags(tags)) == Keys(tags)
    ensures forall k :: Lookup(LiftTags(tags), k) ==
                        match Lookup(tags, k) case Some(v) => Some(VStr(v)) case None => None
  {
    if tags != [] {
      LiftTagsSpec(tags[1..]);
    }
  }

  lemma LiftTagsUnique(tags: seq<(string, string)>)
    requires UniqueKeys(tags)
    ensures UniqueKeys(LiftTags(tags))
  {
    LiftTagsSpec(tags);
    assert forall i :: 0 <= i < |tags| ==> LiftTags(tags)[i].0 == Keys(LiftTags(tags))[i];
  }

  /** The fields `writeLog` writes itself: the keys of `FixedKeys`, in that order, once each. */
  function FixedFields(record: LogRecord, message: string, context: Context, date: string, io: Collaborators): (r: Payload)
    ensures Keys(r) == FixedKeys
    ensures UniqueKeys(r)
  {
    [ ("date", VStr(date)),
      ("level", VStr(UpperAscii(record.level))),
      ("requestId", VStr(record.requestId)),
      ("component", VStr(record.component)),
      ("message", VStr(io.interpolate(message, context))),
      ("context", VArray(context)) ]
  }

  /** The fixed fields hold exactly the keys in `FixedKeys`, each with its value. */
  lemma FixedFieldsLookup(record: LogRecord, message: string, context: Context, date: string, io: Collaborators, k: string)
    ensures Lookup(FixedFields(record, message, context, date, io), k).Some? <==> k in FixedKeys
    ensures forall i :: 0 <= i < 6 && FixedKeys[i] == k ==>
              Lookup(FixedFields(record, message, context, date, io), k) == Some(FixedFields(record, message, context, date, io)[i].1)
  {
    var f := FixedFields(record, message, context, date, io);
    assert Keys(f) == FixedKeys;
    forall i | 0 <= i < 6 && FixedKeys[i] == k ensures Lookup(f, k) == Some(f[i].1) {
      LookupAt(f, i);
    }
    LookupNone(f, k);
  }

  /**
   * `[...$tags, <fixed fields>, ...$tracing]`, then `$payload['X-Request-Id'] = ...`:
   * the context-store tags open the payload in their own order, and a header
   * value is what `X-Request-Id` holds.
   */
  function BuildPayload(tags: seq<(string, string)>, fixed: Payload, tracing: Payload, header: Option<string>): (r: Payload)
    ensures |r| >= |tags|
    ensures forall i :: 0 <= i < |tags| ==> r[i].0 == tags[i].0
    ensures header.Some? ==> Lookup(r, RequestIdKey) == Some(VStr(header.value))
  {
    var merged := Merge(Merge(LiftTags(tags), fixed), tracing);
    if header.Some? then
      PutLookupAll(merged, RequestIdKey, VStr(header.value));
      Put(merged, RequestIdKey, VStr(header.value))
    else merged
  }

  /**
   * Later sources win: the header over the tracing tags, those over the fixed
   * fields, and those over the context-store tags.
   */
  lemma BuildPayloadLookup(tags: seq<(string, string)>, fixed: Payload, tracing: Payload, header: Option<string>, k: string)
    requires UniqueKeys(fixed) && UniqueKeys(tracing)
    ensures Lookup(BuildPayload(tags, fixed, tracing, header), k) ==
              if k == RequestIdKey && header.Some? then Some(VStr(header.value))
              else if Lookup(tracing, k).Some? then Lookup(tracing, k)
              else if Lookup(fixed, k).Some? then Lookup(fixed, k)
              else Lookup(LiftTags(tags), k)
  {
    var merged := Merge(Merge(LiftTags(tags), fixed), tracing);
    MergeLookup(Merge(LiftTags(tags), fixed), tracing, k);
    MergeLookup(LiftTags(tags), fixed, k);
    if header.Some? {
      PutLookup(merged, RequestIdKey, VStr(header.value), k);
    }
  }

  /** The record's message and context after exception folding. */
  function FoldedRecord(record: LogRecord, io: Collaborators): (string, Context)
  {
    FoldException(record.message, record.data, io)
  }

  /**
   * The `date` value with the corrected rendering: the creation time written with
   * six fraction digits, parsed back and formatted, which is always the record's
   * own creation time.
   */
  function RecordDate(record: LogRecord, env: Ambient, io: Collaborators): (date: string)
    ensures date == io.formatDate(record.created)
  {
    CreationDateOfFixedMicroText(record.created, env.now, io.formatDate);
    CreationDate(FixedMicroText(record.created), env.now, io.formatDate)
  }

  /**
   * The `date` value as line 141 computes it, with the cast written as the exact
   * decimal rendering `ExactDecimalText`: a record created on a whole second is dated
   * with the current time.
   */
  function AsWrittenRecordDate(record: LogRecord, env: Ambient, io: Collaborators): (date: string)
    ensures record.created.micros == 0 ==> date == env.now
  {
    CreationDateOfWholeSecond(record.created.seconds, env.now, io.formatDate);
    CreationDate(ExactDecimalText(record.created), env.now, io.formatDate)
  }

  /**
   * In the exact decimal rendering of line 141, the as-written date agrees with
   * the corrected one except for a record created on a whole second, which is
   * dated with the current time.
   */
  lemma AsWrittenDateDiffersOnWholeSeconds(record: LogRecord, env: Ambient, io: Collaborators)
    ensures AsWrittenRecordDate(record, env, io) ==
              if record.created.micros == 0 then env.now else RecordDate(record, env, io)
  {
    ExactDecimalTextParse(record.created);
  }

  /**
   * The payload `writeLog` serializes for `record`, with `date` from the corrected
   * rendering (`RecordDate`); the exact-decimal rendering of line 141 gives
   * `AsWrittenRecordDate`.
   */
  function RecordPayload(record: LogRecord, tags: seq<(string, string)>, env: Ambient, io: Collaborators): (p: Payload)
    ensures |p| >= |tags|
    ensures forall i :: 0 <= i < |tags| ==> p[i].0 == tags[i].0
    ensures RequestIdHeader(env.request).Some? ==>
              Lookup(p, RequestIdKey) == Some(VStr(RequestIdHeader(env.request).value))
  {
    var (message, context) := FoldedRecord(record, io);
    BuildPayload(tags, FixedFields(record, message, context, RecordDate(record, env, io), io),
                 TracingTags(env.span), RequestIdHeader(env.request))
  }

  /**
   * The payload always carries the six fixed fields with the record's values,
   * whatever the tags hold: `date` is the record's creation time (with the
   * corrected rendering) and `level` the upper-cased level.
   */
  lemma RecordPayloadFields(record: LogRecord, tags: seq<(string, string)>, env: Ambient, io: Collaborators)
    ensures var p := RecordPayload(record, tags, env, io);
      var (message, context) := FoldedRecord(record, io);
      && Lookup(p, "date") == Some(VStr(io.formatDate(record.created)))
      && Lookup(p, "level") == Some(VStr(UpperAscii(record.level)))
      && Lookup(p, "requestId") == Some(VStr(record.requestId))
      && Lookup(p, "component") == Some(VStr(record.component))
      && Lookup(p, "message") == Some(VStr(io.interpolate(message, context)))
      && Lookup(p, "context") == Some(VArray(context))
  {
    var (message, context) := FoldedRecord(record, io);
    var date := RecordDate(record, env, io);
    var fixed := FixedFields(record, message, context, date, io);
    var tracing := TracingTags(env.span);
    var header := RequestIdHeader(env.request);
    forall i | 0 <= i < 6
      ensures Lookup(RecordPayload(record, tags, env, io), FixedKeys[i]) == Some(fixed[i].1)
    {
      var k := FixedKeys[i];
      TracingTagsLookup(env.span, k);
      FixedFieldsLookup(record, message, context, date, io, k);
      BuildPayloadLookup(tags, fixed, tracing, header, k);
    }
    assert FixedKeys[0] == "date" && FixedKeys[1] == "level" && FixedKeys[2] == "requestId";
    assert FixedKeys[3] == "component" && FixedKeys[4] == "message" && FixedKeys[5] == "context";
  }

  /**
   * A tag reaches the payload unchanged unless its key is a fixed field, a
   * tracing key in use, or `X-Request-Id` with the header present.
   */
  lemma RecordPayloadTag(record: LogRecord, tags: seq<(string, string)>, env: Ambient, io: Collaborators, k: string)
    requires k !in FixedKeys
    requires Lookup(TracingTags(env.span), k).None?
    requires k == RequestIdKey ==> RequestIdHeader(env.request).None?
    ensures Lookup(RecordPayload(record, tags, env, io), k) ==
              match Lookup(tags, k) case Some(v) => Some(VStr(v)) case None => None
  {
    var (message, context) := FoldedRecord(record, io);
    var fixed := FixedFields(record, message, context, RecordDate(record, env, io), io);
    FixedFieldsLookup(record, message, context, RecordDate(record, env, io), io, k);
    BuildPayloadLookup(tags, fixed, TracingTags(env.span), RequestIdHeader(env.request), k);
    LiftTagsSpec(tags);
  }

  /**
   * `X-Request-Id` comes from the current `ServerRequest`'s header when it has
   * one, and otherwise only from a context-store tag of that name.
   */
  lemma RecordPayloadRequestId(record: LogRecord, tags: seq<(string, string)>, env: Ambient, io: Collaborators)
    ensures Lookup(RecordPayload(record, tags, env, io), RequestIdKey) ==
              match RequestIdHeader(env.request)
              case Some(h) => Some(VStr(h))
              case None => match Lookup(tags, RequestIdKey) case Some(v) => Some(VStr(v)) case None => None
  {
    TracingTagsLookup(env.span, RequestIdKey);
    if RequestIdHeader(env.request).None? {
      RecordPayloadTag(record, tags, env, io, RequestIdKey);
    } else {
      var (message, context) := FoldedRecord(record, io);
      var fixed := FixedFields(record, message, context, RecordDate(record, env, io), io);
      BuildPayloadLookup(tags, fixed, TracingTags(env.span), RequestIdHeader(env.request), RequestIdKey);
    }
  }

  lemma RecordPayloadUnique(record: LogRecord, tags: seq<(string, string)>, env: Ambient, io: Collaborators)
    requires UniqueKeys(tags)
    ensures UniqueKeys(RecordPayload(record, tags, env, io))
    ensures HasKey(RecordPayload(record, tags, env, io), "context")
  {
    var (message, context) := FoldedRecord(record, io);
    var fixed := FixedFields(record, message, context, RecordDate(record, env, io), io);
    LiftTagsUnique(tags);
    MergeUnique(LiftTags(tags), fixed);
    MergeUnique(Merge(LiftTags(tags), fixed), TracingTags(env.span));
    var header := RequestIdHeader(env.request);
    if header.Some? {
      PutUnique(Merge(Merge(LiftTags(tags), fixed), TracingTags(env.span)), RequestIdKey, VStr(header.value));
    }
    RecordPayloadFields(record, tags, env, io);
    LookupNone(RecordPayload(record, tags, env, io), "context");
  }

  // ----- the degraded payload -----

  /** `$context['exception']`, which reads as null when missing. */
  function ExceptionEntry(context: Context): (v: Value)
    ensures !HasKey(context, ExceptionKey) ==> v == VNull
    ensures HasKey(context, ExceptionKey) ==> Lookup(context, ExceptionKey) == Some(v)
  {
    LookupNone(context, ExceptionKey);
    match Lookup(context, ExceptionKey) case Some(v) => v case None => VNull
  }

  /** The reduced context: empty, plus the `exception` entry when it is truthy. */
  function ReducedContext(context: Context): (r: Context)
    ensures |r| <= 1
    ensures forall i :: 0 <= i < |r| ==> r[i].0 == ExceptionKey && Truthy(r[i].1)
  {
    if Truthy(ExceptionEntry(context)) then [(ExceptionKey, ExceptionEntry(context))] else []
  }

  /** `$safePayload['context'] = ...`: only the `context` entry changes. */
  function ReducedPayload(payload: Payload, context: Context): (r: Payload)
    ensures Lookup(r, "context") == Some(VArray(ReducedContext(context)))
    ensures forall k :: k != "context" ==> Lookup(r, k) == Lookup(payload, k)
  {
    PutLookupAll(payload, "context", VArray(ReducedContext(context)));
    Put(payload, "context", VArray(ReducedContext(context)))
  }

  /** The reduced context holds `exception` exactly when the context holds a truthy one. */
  lemma ReducedContextSpec(context: Context)
    ensures ReducedContext(context) == [] || ReducedContext(context) == [(ExceptionKey, Lookup(context, ExceptionKey).value)]
    ensures ReducedContext(context) != [] <==> Lookup(context, ExceptionKey).Some? && Truthy(Lookup(context, ExceptionKey).value)
  {
  }

  /**
   * The reduced payload is the payload with only its `context` entry replaced,
   * at the same position.
   */
  lemma ReducedPayloadShape(payload: Payload, context: Context)
    requires UniqueKeys(payload) && HasKey(payload, "context")
    ensures |ReducedPayload(payload, context)| == |payload|
    ensures forall i :: 0 <= i < |payload| ==>
              ReducedPayload(payload, context)[i] ==
                if payload[i].0 == "context" then ("context", VArray(ReducedContext(context))) else payload[i]
  {
    PutShape(payload, "context", VArray(ReducedContext(context)));
  }

  // ----- serialization -----

  /**
   * Serialize the payload; when that throws an `\Exception`, serialize the reduced
   * payload instead. An `\Error`, or a throw from the second attempt, escapes.
   */
  function TwoTierSerialize(payload: Payload, context: Context, serialize: Payload -> Encoding): (r: SerializeResult)
    ensures r.Encoded? ==> serialize(r.safePayload) == Json(r.json)
    ensures serialize(payload).Json? ==> r == Encoded(serialize(payload).text, payload)
    ensures r.Encoded? && r.safePayload != payload ==>
              serialize(payload) == Throws(ExceptionRaised) && r.safePayload == ReducedPayload(payload, context)
    ensures r.Escaped? <==>
              serialize(payload) == Throws(ErrorRaised) ||
              (serialize(payload) == Throws(ExceptionRaised) && serialize(ReducedPayload(payload, context)).Throws?)
    ensures serialize(payload) == Throws(ErrorRaised) ==> r == Escaped(ErrorRaised)
    ensures serialize(payload) == Throws(ExceptionRaised) && serialize(ReducedPayload(payload, context)).Throws? ==>
              r == Escaped(serialize(ReducedPayload(payload, context)).raised)
  {
    match serialize(payload)
    case Json(text) => Encoded(text, payload)
    case Throws(ErrorRaised) => Escaped(ErrorRaised)
    case Throws(ExceptionRaised) =>
      var safePayload := ReducedPayload(payload, context);
      match serialize(safePayload)
      case Json(text) => Encoded(text, safePayload)
      case Throws(raised) => Escaped(raised)
  }

  /** The process state `writeLog` changes: the error-reporting level, the log file, the system log. */
  class Host {
    var errorReporting: int
    var logFile: string
    var auditLog: seq<AuditEntry>

    constructor (level: int)
      ensures errorReporting == level && logFile == [] && auditLog == []
    {
      errorReporting := level;
      logFile := [];
      auditLog := [];
    }
  }

  /**
   * Lines 82-95 as written: the level is lowered to `E_ERROR` for serialization and
   * restored afterwards, but a throwable that escapes skips the restoring line.
   */
  method SerializeQuietlyAsWritten(host: Host, payload: Payload, context: Context, serialize: Payload -> Encoding)
    returns (r: SerializeResult)
    modifies host`errorReporting
    ensures r == TwoTierSerialize(payload, context, serialize)
    ensures host.errorReporting == if r.Encoded? then old(host.errorReporting) else E_ERROR
  {
    var oldReporting := host.errorReporting;
    host.errorReporting := E_ERROR;
    r := TwoTierSerialize(payload, context, serialize);
    if r.Escaped? {
      return;
    }
    host.errorReporting := oldReporting;
  }

  /** A serializer that throws on every payload leaves the process at `E_ERROR`. */
  method ErrorReportingLeak() returns (before: int, after: int)
    ensures before == E_ALL && after == E_ERROR
  {
    var host := new Host(E_ALL);
    before := host.errorReporting;
    var r := SerializeQuietlyAsWritten(host, [], [], _ => Throws(ExceptionRaised));
    after := host.errorReporting;
  }

  /** Lines 82-95 with the level restored on every path, as in a `finally` block. */
  method SerializeQuietly(host: Host, payload: Payload, context: Context, serialize: Payload -> Encoding)
    returns (r: SerializeResult)
    modifies host`errorReporting
    ensures r == TwoTierSerialize(payload, context, serialize)
    ensures host.errorReporting == old(host.errorReporting)
  {
    var oldReporting := host.errorReporting;
    host.errorReporting := E_ERROR;
    r := TwoTierSerialize(payload, context, serialize);
    host.errorReporting := oldReporting;
  }

  // ----- the write and its failure -----

  /**
   * Lines 97-108: append the line, or report the failed append. The line goes to
   * the log file exactly when `fwrite` succeeds, and then nothing is audited;
   * the `RuntimeException` is thrown exactly when there is no backend user to
   * audit the failure; only an `\Error` from the audit write escapes.
   */
  function SinkStep(json: string, safePayload: Payload, env: Ambient): (e: Effect)
    ensures e.appended != [] <==> env.fwriteSucceeds
    ensures e.appended == [] || e.audited == []
    ensures |e.audited| <= 1
    ensures e.outcome.WriteFailed? <==> !env.fwriteSucceeds && !env.backendUser
    ensures e.outcome.Uncaught? ==> e.outcome == Uncaught(ErrorRaised, AuditWrite)
  {
    if env.fwriteSucceeds then Effect(Returned, json + "\n", [])
    else if env.backendUser then
      Effect(if env.auditRaises == Some(ErrorRaised) then Uncaught(ErrorRaised, AuditWrite) else Returned,
             [], [AuditEntry(WriteFailureMessage, safePayload)])
    else Effect(WriteFailed(WriteFailureMessage, WriteFailureCode), [], [])
  }

  /**
   * The whole of `writeLog` for one record, given the tags at call time: at most
   * one line, ending in a line feed, or at most one audit write, never both; a
   * throwable from the serializer leaves both untouched.
   */
  function WriteLogEffect(record: LogRecord, tags: seq<(string, string)>, env: Ambient, io: Collaborators): (e: Effect)
    ensures e.appended == [] || e.audited == []
    ensures e.appended != [] ==> env.fwriteSucceeds && e.appended[|e.appended| - 1] == '\n'
    ensures |e.audited| <= 1
    ensures e.outcome.Uncaught? && e.outcome.site == Serializer ==> e.appended == [] && e.audited == []
  {
    match TwoTierSerialize(RecordPayload(record, tags, env, io), FoldedRecord(record, io).1, io.serialize)
    case Escaped(raised) => Effect(Uncaught(raised, Serializer), [], [])
    case Encoded(json, safePayload) => SinkStep(json, safePayload, env)
  }

  /**
   * A successful append writes the serializer's text for the payload that was
   * kept, followed by one line feed, and nothing goes to the system log.
   */
  lemma WriteSucceeded(record: LogRecord, tags: seq<(string, string)>, env: Ambient, io: Collaborators)
    requires env.fwriteSucceeds
    requires TwoTierSerialize(RecordPayload(record, tags, env, io), FoldedRecord(record, io).1, io.serialize).Encoded?
    ensures var r := TwoTierSerialize(RecordPayload(record, tags, env, io), FoldedRecord(record, io).1, io.serialize);
      && WriteLogEffect(record, tags, env, io) == Effect(Returned, r.json + "\n", [])
      && io.serialize(r.safePayload) == Json(r.json)
  {
  }

  /** A failed append with no backend user throws code 1697542908 and writes nothing. */
  lemma WriteFailedWithoutBackendUser(record: LogRecord, tags: seq<(string, string)>, env: Ambient, io: Collaborators)
    requires !env.fwriteSucceeds && !env.backendUser
    requires TwoTierSerialize(RecordPayload(record, tags, env, io), FoldedRecord(record, io).1, io.serialize).Encoded?
    ensures WriteLogEffect(record, tags, env, io) == Effect(WriteFailed(WriteFailureMessage, 1697542908), [], [])
  {
  }

  /**
   * A failed append with a backend user makes one audit write of the kept payload;
   * an `\Exception` from it is swallowed and `writeLog` returns.
   */
  lemma WriteFailedWithBackendUser(record: LogRecord, tags: seq<(string, string)>, env: Ambient, io: Collaborators)
    requires !env.fwriteSucceeds && env.backendUser
    requires TwoTierSerialize(RecordPayload(record, tags, env, io), FoldedRecord(record, io).1, io.serialize).Encoded?
    ensures var r := TwoTierSerialize(RecordPayload(record, tags, env, io), FoldedRecord(record, io).1, io.serialize);
      && WriteLogEffect(record, tags, env, io).audited == [AuditEntry(WriteFailureMessage, r.safePayload)]
      && WriteLogEffect(record, tags, env, io).appended == []
      && (env.auditRaises != Some(ErrorRaised) <==> WriteLogEffect(record, tags, env, io).outcome == Returned)
  {
  }

  /**
   * Content that the serializer rejects with an `\Exception` does not reach the
   * caller: when the reduced payload serializes, the record is written with a
   * `context` of at most the `exception` entry.
   */
  lemma DegradedRecordIsWritten(record: LogRecord, tags: seq<(string, string)>, env: Ambient, io: Collaborators)
    requires UniqueKeys(tags)
    requires env.fwriteSucceeds
    requires io.serialize(RecordPayload(record, tags, env, io)) == Throws(ExceptionRaised)
    requires io.serialize(ReducedPayload(RecordPayload(record, tags, env, io), FoldedRecord(record, io).1)).Json?
    ensures var p := RecordPayload(record, tags, env, io);
      var safe := ReducedPayload(p, FoldedRecord(record, io).1);
      && WriteLogEffect(record, tags, env, io) == Effect(Returned, io.serialize(safe).text + "\n", [])
      && Lookup(safe, "context") == Some(VArray(ReducedContext(FoldedRecord(record, io).1)))
      && (forall k :: k != "context" ==> Lookup(safe, k) == Lookup(p, k))
  {
    var p := RecordPayload(record, tags, env, io);
    var safe := ReducedPayload(p, FoldedRecord(record, io).1);
    forall k ensures Lookup(safe, k) == if k == "context" then Some(VArray(ReducedContext(FoldedRecord(record, io).1))) else Lookup(p, k) {
      PutLookup(p, "context", VArray(ReducedContext(FoldedRecord(record, io).1)), k);
    }
  }

  class JsonWriter {
    /** The process-wide context store, `$this->context`. */
    const context: LogContext

    constructor (store: LogContext)
      ensures context == store
    {
      context := store;
    }

    /**
     * `writeLog`: the outcome, the appended text and the audit writes are those of
     * `WriteLogEffect` for the store's tags at call time, and the error-reporting
     * level is left as it was found.
     */
    method WriteLog(record: LogRecord, env: Ambient, io: Collaborators, host: Host) returns (outcome: Outcome)
      requires context.Valid()
      modifies host
      ensures var effect := WriteLogEffect(record, context.information, env, io);
        && outcome == effect.outcome
        && host.logFile == old(host.logFile) + effect.appended
        && host.auditLog == old(host.auditLog) + effect.audited
      ensures host.errorReporting == old(host.errorReporting)
    {
      var data := record.data;
      var message := record.message;
      if data != [] {
        match ThrowableIn(data) {
          case Some(e) =>
            message := message + io.formatException(e);
            data := Put(data, ExceptionKey, VStr(io.throwableText(e)));
          case None =>
        }
      }

      assert (message, data) == FoldedRecord(record, io);
      var tags := context.GetAll();
      var date := CreationDate(FixedMicroText(record.created), env.now, io.formatDate);
      var payload := Merge(Merge(LiftTags(tags), FixedFields(record, message, data, date, io)), TracingTags(env.span));
      var header := RequestIdHeader(env.request);
      if header.Some? {
        payload := Put(payload, RequestIdKey, VStr(header.value));
      }
      assert payload == RecordPayload(record, tags, env, io);

      var r := SerializeQuietly(host, payload, data, io.serialize);
      if r.Escaped? {
        outcome := Uncaught(r.raised, Serializer);
        return;
      }

      if env.fwriteSucceeds {
        host.logFile := host.logFile + r.json + "\n";
        outcome := Returned;
      } else if env.backendUser {
        host.auditLog := host.auditLog + [AuditEntry(WriteFailureMessage, r.safePayload)];
        outcome := if env.auditRaises == Some(ErrorRaised) then Uncaught(ErrorRaised, AuditWrite) else Returned;
      } else {
        outcome := WriteFailed(WriteFailureMessage, WriteFailureCode);
      }
    }
  }
}

=== FILE: log_context.dfy ===
/**
 * The process-wide store of contextual tags that every log line carries: an
 * insertion-ordered map from tag name to its string form.
 */
module ContextStore {
  import opened Wrappers
  import opened OrderedMap

  class LogContext {
    /** The tags, in insertion order. */
    var information: seq<(string, string)>

    /** A PHP array never holds a key twice. */
    ghost predicate Valid()
      reads this
    {
      UniqueKeys(information)
    }

    constructor ()
      ensures Valid() && information == []
    {
      information := [];
    }

    /**
     * Stores `value` (already in its string form) under `key`, silently
     * overwriting a previous value.
     */
    method Add(key: string, value: string)
      requires Valid()
      modifies this
      ensures Valid()
      ensures information == Put(old(information), key, value)
      ensures Lookup(information, key) == Some(value)
      ensures forall k :: k != key ==> Lookup(information, k) == Lookup(old(information), k)
    {
      PutUnique(information, key, value);
      forall k ensures Lookup(Put(information, key, value), k) ==
                       if k == key then Some(value) else Lookup(information, k) {
        PutLookup(information, key, value, k);
      }
      information := Put(information, key, value);
    }

    /** A copy of the tags: PHP returns arrays by value. */
    method GetAll() returns (snapshot: seq<(string, string)>)
      requires Valid()
      ensures UniqueKeys(snapshot)
      ensures snapshot == information
    {
      snapshot := information;
    }

    /** Deletes `key` if present; deleting an absent key does nothing. */
    method Remove(key: string)
      requires Valid()
      modifies this
      ensures Valid()
      ensures information == Delete(old(information), key)
      ensures Lookup(information, key) == None
      ensures forall k :: k != key ==> Lookup(information, k) == Lookup(old(information), k)
    {
      DeleteUnique(information, key);
      forall k ensures Lookup(Delete(information, key), k) ==
                       if k == key then None else Lookup(information, k) {
        DeleteLookup(information, key, k);
      }
      information := Delete(information, key);
    }

    /** Drops every tag. */
    method Reset()
      modifies this
      ensures Valid()
      ensures information == []
    {
      information := [];
    }
  }

  /**
   * One fixed sequence of calls (`getAll`, then `add`, `remove` and `reset`) on a
   * store. The snapshot is unchanged afterwards because a Dafny `seq` is an
   * immutable value, which matches PHP's return of arrays by value. This shows
   * that the calls compose; it proves nothing about `GetAll` beyond its own
   * contract.
   */
  method SnapshotSurvivesUpdates(store: LogContext, k: string, v: string) returns (snapshot: seq<(string, string)>)
    requires store.Valid()
    modifies store
    ensures snapshot == old(store.information)
    ensures store.information == []
  {
    snapshot := store.GetAll();
    store.Add(k, v);
    store.Remove(k);
    store.Reset();
  }
}

=== FILE: ordered_map.dfy ===
/**
 * A PHP array with string keys, as an association list in insertion order.
 *
 * PHP arrays are ordered maps: assigning to a present key overwrites the value
 * in place, assigning to a new key appends it, `unset` deletes the entry and
 * keeps the others in order, and an array literal with spreads (`[...$a, 'k' => v,
 * ...$b]`) performs those assignments one after the other.
 */
module OrderedMap {
  import opened Wrappers

  /** The keys of `s`, in order. */
  function Keys<V>(s: seq<(string, V)>): (ks: seq<string>)
    ensures |ks| == |s|
    ensures forall i :: 0 <= i < |s| ==> ks[i] == s[i].0
  {
    seq(|s|, i requires 0 <= i < |s| => s[i].0)
  }

  ghost predicate HasKey<V>(s: seq<(string, V)>, k: string)
  {
    exists i :: 0 <= i < |s| && s[i].0 == k
  }

  /** Every key occurs at most once: what a PHP array always satisfies. */
  ghost predicate UniqueKeys<V>(s: seq<(string, V)>)
  {
    forall i, j :: 0 <= i < j < |s| ==> s[i].0 != s[j].0
  }

  /** `$a[$k] ?? null`: the value stored under `k`. */
  function Lookup<V>(s: seq<(string, V)>, k: string): Option<V>
  {
    if s == [] then None
    else if s[0].0 == k then Some(s[0].1)
    else Lookup(s[1..], k)
  }

  /**
   * `$a[$k] = $v`: overwrite in place when present, append otherwise. Either way
   * the keys already there keep their positions, and at most one entry is added.
   */
  function Put<V>(s: seq<(string, V)>, k: string, v: V): (r: seq<(string, V)>)
    ensures |r| == |s| || |r| == |s| + 1
    ensures forall i :: 0 <= i < |s| ==> r[i].0 == s[i].0
  {
    if s == [] then [(k, v)]
    else if s[0].0 == k then [(k, v)] + s[1..]
    else [s[0]] + Put(s[1..], k, v)
  }

  /** `unset($a[$k])`: no entry for `k` is left, and no entry is added. */
  function Delete<V>(s: seq<(string, V)>, k: string): (r: seq<(string, V)>)
    ensures |r| <= |s|
    ensures forall i :: 0 <= i < |r| ==> r[i].0 != k
  {
    if s == [] then []
    else if s[0].0 == k then Delete(s[1..], k)
    else [s[0]] + Delete(s[1..], k)
  }

  /**
   * `[...$a, ...$b]`: the entries of `b`, in order, assigned into `a`. Every key of
   * `a` keeps its position; `b`'s new keys come after.
   */
  function Merge<V>(a: seq<(string, V)>, b: seq<(string, V)>): (r: seq<(string, V)>)
    ensures |a| <= |r| <= |a| + |b|
    ensures forall i :: 0 <= i < |a| ==> r[i].0 == a[i].0
    decreases |b|
  {
    if b == [] then a else Merge(Put(a, b[0].0, b[0].1), b[1..])
  }

  // ----- Lookup -----

  /** A key is present exactly when it is the first key or present in the rest. */
  lemma HasKeyCons<V>(s: seq<(string, V)>, k: string)
    requires s != []
    ensures HasKey(s, k) <==> s[0].0 == k || HasKey(s[1..], k)
  {
    if HasKey(s[1..], k) {
      var j :| 0 <= j < |s[1..]| && s[1..][j].0 == k;
      assert s[j + 1].0 == k;
    }
    if HasKey(s, k) && s[0].0 != k {
      var i :| 0 <= i < |s| && s[i].0 == k;
      assert s[1..][i - 1].0 == k;
    }
  }

  /** A lookup misses exactly when the key is absent. */
  lemma {:induction false} LookupNone<V>(s: seq<(string, V)>, k: string)
    ensures Lookup(s, k).None? <==> !HasKey(s, k)
  {
    if s != [] {
      LookupNone(s[1..], k);
      HasKeyCons(s, k);
    }
  }

  /** With unique keys, a lookup returns the value stored at the key's position. */
  lemma {:induction false} LookupAt<V>(s: seq<(string, V)>, i: nat)
    requires UniqueKeys(s) && i < |s|
    ensures Lookup(s, s[i].0) == Some(s[i].1)
  {
    if i > 0 {
      assert s[1..][i - 1] == s[i];
      LookupAt(s[1..], i - 1);
    }
  }

  // ----- Put -----

  /** After `$a[$k] = $v`, `k` maps to `v` and every other key keeps its value. */
  lemma {:induction false} PutLookup<V>(s: seq<(string, V)>, k: string, v: V, k': string)
    ensures Lookup(Put(s, k, v), k') == if k' == k then Some(v) else Lookup(s, k')
  {
    if s != [] && s[0].0 != k {
      PutLookup(s[1..], k, v, k');
    }
  }

  /** `PutLookup` for every key at once. */
  lemma PutLookupAll<V>(s: seq<(string, V)>, k: string, v: V)
    ensures Lookup(Put(s, k, v), k) == Some(v)
    ensures forall k' :: k' != k ==> Lookup(Put(s, k, v), k') == Lookup(s, k')
  {
    forall k' ensures Lookup(Put(s, k, v), k') == if k' == k then Some(v) else Lookup(s, k') {
      PutLookup(s, k, v, k');
    }
  }

  /**
   * Where the entry goes: a present key is overwritten at its own position (the
   * size does not grow), an absent key is appended at the end.
   */
  lemma {:induction false} PutShape<V>(s: seq<(string, V)>, k: string, v: V)
    requires UniqueKeys(s)
    ensures HasKey(s, k) ==> |Put(s, k, v)| == |s|
    ensures HasKey(s, k) ==>
              forall i :: 0 <= i < |s| ==> Put(s, k, v)[i] == (if s[i].0 == k then (k, v) else s[i])
    ensures !HasKey(s, k) ==> Put(s, k, v) == s + [(k, v)]
  {
    if s != [] {
      assert UniqueKeys(s[1..]);
      PutShape(s[1..], k, v);
      HasKeyCons(s, k);
    }
  }

  lemma {:induction false} PutUnique<V>(s: seq<(string, V)>, k: string, v: V)
    requires UniqueKeys(s)
    ensures UniqueKeys(Put(s, k, v))
  {
    PutShape(s, k, v);
    if !HasKey(s, k) {
      var r := Put(s, k, v);
      forall i, j | 0 <= i < j < |r| ensures r[i].0 != r[j].0 {
        if j == |s| {
          assert r[i] == s[i];
        }
      }
    }
  }

  /** Writing a key twice leaves the second value: `$a[k] = 1; $a[k] = 2` is `$a[k] = 2`. */
  lemma {:induction false} PutPut<V>(s: seq<(string, V)>, k: string, v1: V, v2: V)
    ensures Put(Put(s, k, v1), k, v2) == Put(s, k, v2)
  {
    if s != [] && s[0].0 != k {
      PutPut(s[1..], k, v1, v2);
    }
  }

  // ----- Delete -----

  /** After `unset($a[$k])`, `k` is absent and every other key keeps its value. */
  lemma {:induction false} DeleteLookup<V>(s: seq<(string, V)>, k: string, k': string)
    ensures Lookup(Delete(s, k), k') == if k' == k then None else Lookup(s, k')
  {
    if s != [] {
      DeleteLookup(s[1..], k, k');
    }
  }

  /** Unsetting an absent key changes nothing. */
  lemma {:induction false} DeleteAbsent<V>(s: seq<(string, V)>, k: string)
    requires !HasKey(s, k)
    ensures Delete(s, k) == s
  {
    if s != [] {
      HasKeyCons(s, k);
      DeleteAbsent(s[1..], k);
    }
  }

  /** Unsetting a present key removes exactly its entry; the rest keep their order. */
  lemma {:induction false} DeleteAt<V>(s: seq<(string, V)>, i: nat)
    requires UniqueKeys(s) && i < |s|
    ensures Delete(s, s[i].0) == s[..i] + s[i + 1..]
  {
    var k := s[i].0;
    if i == 0 {
      assert !HasKey(s[1..], k) by {
        forall j | 0 <= j < |s[1..]| ensures s[1..][j].0 != k {
          assert s[1..][j] == s[j + 1];
        }
      }
      DeleteAbsent(s[1..], k);
    } else {
      assert s[1..][i - 1] == s[i];
      DeleteAt(s[1..], i - 1);
      assert s[1..][..i - 1] + s[1..][i..] == s[1..i] + s[i + 1..];
      assert s[..i] == [s[0]] + s[1..i];
    }
  }

  /** `unset` twice is `unset` once. */
  lemma {:induction false} DeleteIdempotent<V>(s: seq<(string, V)>, k: string)
    ensures Delete(Delete(s, k), k) == Delete(s, k)
  {
    assert !HasKey(Delete(s, k), k);
    DeleteAbsent(Delete(s, k), k);
  }

  lemma {:induction false} DeleteUnique<V>(s: seq<(string, V)>, k: string)
    requires UniqueKeys(s)
    ensures UniqueKeys(Delete(s, k))
  {
    if HasKey(s, k) {
      var i :| 0 <= i < |s| && s[i].0 == k;
      DeleteAt(s, i);
      var r := Delete(s, k);
      forall a, b | 0 <= a < b < |r| ensures r[a].0 != r[b].0 {
        var a' := if a < i then a else a + 1;
        var b' := if b < i then b else b + 1;
        assert r[a] == s[a'] && r[b] == s[b'];
      }
    } else {
      DeleteAbsent(s, k);
    }
  }

  // ----- Merge -----

  /**
   * In a merge, the later array wins: a key of `b` takes its value from `b`, any
   * other key keeps its value from `a`.
   */
  lemma {:induction false} MergeLookup<V>(a: seq<(string, V)>, b: seq<(string, V)>, k: string)
    requires UniqueKeys(b)
    ensures Lookup(Merge(a, b), k) == if Lookup(b, k).Some? then Lookup(b, k) else Lookup(a, k)
    decreases |b|
  {
    if b != [] {
      assert UniqueKeys(b[1..]);
      MergeLookup(Put(a, b[0].0, b[0].1), b[1..], k);
      PutLookup(a, b[0].0, b[0].1, k);
      if b[0].0 == k {
        LookupNone(b[1..], k);
        assert !HasKey(b[1..], k) by {
          forall j | 0 <= j < |b[1..]| ensures b[1..][j].0 != k {
            assert b[1..][j] == b[j + 1];
          }
        }
      }
    }
  }

  lemma {:induction false} MergeUnique<V>(a: seq<(string, V)>, b: seq<(string, V)>)
    requires UniqueKeys(a)
    ensures UniqueKeys(Merge(a, b))
    decreases |b|
  {
    if b != [] {
      PutUnique(a, b[0].0, b[0].1);
      MergeUnique(Put(a, b[0].0, b[0].1), b[1..]);
    }
  }
}

=== FILE: php_value.dfy ===
/**
 * The PHP values that flow through a log record: the record's free-form context
 * and the payload built from it.
 */
module PhpValue {

  /** A `\Throwable`, seen only through the renderers it is passed to. */
  datatype Throwable = Throwable(className: string, message: string, code: int)

  /**
   * A PHP value. `VArray` is a string-keyed array; `VObject` an object that is
   * not a `\Throwable`. Floats are not modelled.
   */
  datatype Value =
    | VNull
    | VBool(b: bool)
    | VInt(i: int)
    | VStr(s: string)
    | VThrowable(t: Throwable)
    | VObject(className: string)
    | VArray(entries: seq<(string, Value)>)

  /** A log record's context, and the payload written for it. */
  type Context = seq<(string, Value)>
  type Payload = seq<(string, Value)>

  /**
   * PHP's conversion to bool, as used by `if ($x)`: false exactly for null,
   * `false`, `0`, `""`, `"0"` and the empty array.
   */
  predicate Truthy(v: Value): (b: bool)
    ensures !b <==> v in {VNull, VBool(false), VInt(0), VStr(""), VStr("0"), VArray([])}
  {
    match v
    case VNull => false
    case VBool(b) => b
    case VInt(i) => i != 0
    case VStr(s) => s != "" && s != "0"
    case VThrowable(_) => true
    case VObject(_) => true
    case VArray(entries) => entries != []
  }

  function UpperChar(c: char): char
  {
    if 'a' <= c <= 'z' then (c as int - 32) as char else c
  }

  /** `strtoupper`: ASCII letters upper-cased, every other character kept. */
  function UpperAscii(s: string): (r: string)
    ensures |r| == |s|
  {
    if s == [] then [] else [UpperChar(s[0])] + UpperAscii(s[1..])
  }

  /**
   * Each lower-case ASCII letter becomes its upper-case letter (32 code points
   * lower), so none is left, and every other character is kept.
   */
  lemma {:induction false} UpperAsciiSpec(s: string)
    ensures |UpperAscii(s)| == |s|
    ensures forall i :: 0 <= i < |s| ==> !('a' <= UpperAscii(s)[i] <= 'z')
    ensures forall i :: 0 <= i < |s| && 'a' <= s[i] <= 'z' ==> UpperAscii(s)[i] as int == s[i] as int - 32
    ensures forall i :: 0 <= i < |s| && !('a' <= s[i] <= 'z') ==> UpperAscii(s)[i] == s[i]
  {
    if s != [] {
      UpperAsciiSpec(s[1..]);
      assert forall i :: 1 <= i < |s| ==> UpperAscii(s)[i] == UpperAscii(s[1..])[i - 1];
    }
  }

  /** Upper-casing twice is upper-casing once. */
  lemma {:induction false} UpperAsciiIdempotent(s: string)
    ensures UpperAscii(UpperAscii(s)) == UpperAscii(s)
  {
    if s != [] {
      UpperAsciiIdempotent(s[1..]);
    }
  }
}

=== FILE: timestamp.dfy ===
/**
 * The `date` field's source: a record's creation time, rendered to text and parsed
 * back with the `U.u` format (seconds since the epoch, a dot, microseconds).
 */
module Timestamp {
  import opened Wrappers

  type Micros = m: int | 0 <= m < 1_000_000

  /**
   * `LogRecord::getCreated()`, a float of seconds since the epoch, taken here as an
   * exact decimal with microsecond resolution.
   */
  datatype Created = Created(seconds: nat, micros: Micros)

  function Pow10(k: nat): (p: nat)
    ensures p >= 1
  {
    if k == 0 then 1 else 10 * Pow10(k - 1)
  }

  predicate IsDigit(c: char)
  {
    '0' <= c <= '9'
  }

  predicate AllDigits(s: string)
  {
    forall i :: 0 <= i < |s| ==> IsDigit(s[i])
  }

  function DigitChar(d: nat): (c: char)
    requires d < 10
    ensures IsDigit(c) && c as int - '0' as int == d
  {
    ('0' as int + d) as char
  }

  /** The shortest decimal text of `n`. */
  function DecimalText(n: nat): string
  {
    if n < 10 then [DigitChar(n)] else DecimalText(n / 10) + [DigitChar(n % 10)]
  }

  /** The `width` lowest decimal digits of `n`, zero-padded on the left. */
  function FixedDigits(n: nat, width: nat): string
  {
    if width == 0 then [] else FixedDigits(n / 10, width - 1) + [DigitChar(n % 10)]
  }

  /** The number a string of decimal digits denotes. */
  function DigitsValue(s: string): nat
    requires AllDigits(s)
  {
    if s == [] then 0 else 10 * DigitsValue(s[..|s| - 1]) + (s[|s| - 1] as int - '0' as int)
  }

  function TrimTrailingZeros(s: string): (r: string)
    ensures r <= s
    ensures r == [] || r[|r| - 1] != '0'
  {
    if s != [] && s[|s| - 1] == '0' then TrimTrailingZeros(s[..|s| - 1]) else s
  }

  /**
   * `(string)$record->getCreated()`, as the exact decimal rendering of the creation
   * time: the fraction without its trailing zeros, and no dot at all when the
   * fraction is zero. PHP also rounds to 14 significant digits first; that
   * rounding is not part of this function.
   */
  function ExactDecimalText(t: Created): (s: string)
    ensures (exists i :: 0 <= i < |s| && s[i] == '.') <==> t.micros != 0
    ensures t.micros != 0 ==> s[|s| - 1] != '0'
  {
    DecimalTextValue(t.seconds);
    assert Pow10(6) == 1_000_000;
    FixedDigitsValue(t.micros, 6);
    TrimTrailingZerosValue(FixedDigits(t.micros, 6));
    var whole := DecimalText(t.seconds);
    var s := whole + (if t.micros == 0 then "" else "." + TrimTrailingZeros(FixedDigits(t.micros, 6)));
    assert t.micros != 0 ==> s[|whole|] == '.';
    assert t.micros == 0 ==> s == whole;
    s
  }

  /** `sprintf('%.6F', $record->getCreated())`: digits, always a dot, and six fraction digits. */
  function FixedMicroText(t: Created): (s: string)
    ensures |s| >= 8 && s[|s| - 7] == '.'
    ensures AllDigits(s[..|s| - 7]) && AllDigits(s[|s| - 6..])
  {
    DecimalTextValue(t.seconds);
    assert Pow10(6) == 1_000_000;
    FixedDigitsValue(t.micros, 6);
    DecimalText(t.seconds) + "." + FixedDigits(t.micros, 6)
  }

  /** The text before the first dot and the text after it; `None` when there is no dot. */
  function SplitAtDot(s: string): (r: Option<(string, string)>)
    ensures r.None? <==> forall i :: 0 <= i < |s| ==> s[i] != '.'
    ensures r.Some? ==> s == r.value.0 + "." + r.value.1
    ensures r.Some? ==> forall i :: 0 <= i < |r.value.0| ==> r.value.0[i] != '.'
  {
    if s == [] then None
    else if s[0] == '.' then Some(([], s[1..]))
    else match SplitAtDot(s[1..])
      case None => None
      case Some(parts) => Some(([s[0]] + parts.0, parts.1))
  }

  /**
   * `DateTimeImmutable::createFromFormat('U.u', $text)`: the seconds, a dot, then one
   * to six digits read as a fraction of a second (`5` is 500000 microseconds).
   * Anything else fails, and the Safe library turns that failure into an exception.
   */
  function ParseUnixMicros(text: string): (r: Option<Created>)
    ensures (forall i :: 0 <= i < |text| ==> text[i] != '.') ==> r.None?
    ensures r.Some? ==> IsDigit(text[0]) && IsDigit(text[|text| - 1])
  {
    match SplitAtDot(text)
    case None => None
    case Some(parts) =>
      var (whole, frac) := parts;
      if whole != [] && AllDigits(whole) && 1 <= |frac| <= 6 && AllDigits(frac) then
        FractionBound(frac);
        Some(Created(DigitsValue(whole), DigitsValue(frac) * Pow10(6 - |frac|)))
      else None
  }

  /**
   * `createDateForRecordCreationValue`: the parsed creation time rendered by
   * `format`, or the current time `now` when the text does not parse; it never fails.
   */
  function CreationDate(text: string, now: string, format: Created -> string): (date: string)
    ensures ParseUnixMicros(text).None? ==> date == now
    ensures ParseUnixMicros(text).Some? ==> date == format(ParseUnixMicros(text).value)
  {
    match ParseUnixMicros(text)
    case Some(t) => format(t)
    case None => now
  }

  // ----- digits -----

  lemma Pow10Add(a: nat, b: nat)
    ensures Pow10(a + b) == Pow10(a) * Pow10(b)
  {
    if a > 0 {
      Pow10Add(a - 1, b);
    }
  }

  lemma {:induction false} DigitsValueBound(s: string)
    requires AllDigits(s)
    ensures DigitsValue(s) < Pow10(|s|)
  {
    if s != [] {
      DigitsValueBound(s[..|s| - 1]);
    }
  }

  /** A fraction of at most six digits, scaled to microseconds, stays below a second. */
  lemma FractionBound(frac: string)
    requires AllDigits(frac) && |frac| <= 6
    ensures DigitsValue(frac) * Pow10(6 - |frac|) < 1_000_000
  {
    DigitsValueBound(frac);
    Pow10Add(|frac|, 6 - |frac|);
    assert Pow10(6) == 1_000_000;
  }

  lemma DigitsValueSnoc(s: string, c: char)
    requires AllDigits(s) && IsDigit(c)
    ensures AllDigits(s + [c])
    ensures DigitsValue(s + [c]) == 10 * DigitsValue(s) + (c as int - '0' as int)
  {
    assert (s + [c])[..|s|] == s;
  }

  /** `DecimalText` writes `n` with at least one digit and nothing but digits. */
  lemma {:induction false} DecimalTextValue(n: nat)
    ensures |DecimalText(n)| >= 1 && AllDigits(DecimalText(n))
    ensures DigitsValue(DecimalText(n)) == n
  {
    if n < 10 {
      assert DecimalText(n)[..0] == [];
    } else {
      DecimalTextValue(n / 10);
      DigitsValueSnoc(DecimalText(n / 10), DigitChar(n % 10));
    }
  }

  /** `FixedDigits` writes exactly `width` digits, which denote `n` when it fits. */
  lemma {:induction false} FixedDigitsValue(n: nat, width: nat)
    requires n < Pow10(width)
    ensures |FixedDigits(n, width)| == width && AllDigits(FixedDigits(n, width))
    ensures DigitsValue(FixedDigits(n, width)) == n
  {
    if width > 0 {
      FixedDigitsValue(n / 10, width - 1);
      DigitsValueSnoc(FixedDigits(n / 10, width - 1), DigitChar(n % 10));
    }
  }

  lemma MulTen(a: nat, x: nat)
    ensures a * (10 * x) == 10 * (a * x)
  {
  }

  /**
   * Dropping trailing zeros divides the value by a power of ten; a string that
   * denotes a non-zero number keeps at least one digit.
   */
  lemma {:induction false} TrimTrailingZerosValue(s: string)
    requires AllDigits(s)
    ensures |TrimTrailingZeros(s)| <= |s| && AllDigits(TrimTrailingZeros(s))
    ensures DigitsValue(TrimTrailingZeros(s)) * Pow10(|s| - |TrimTrailingZeros(s)|) == DigitsValue(s)
    ensures DigitsValue(s) != 0 ==> TrimTrailingZeros(s) != []
  {
    if s != [] && s[|s| - 1] == '0' {
      var init := s[..|s| - 1];
      TrimTrailingZerosValue(init);
      var t := TrimTrailingZeros(init);
      assert DigitsValue(s) == 10 * DigitsValue(init);
      assert Pow10(|s| - |t|) == 10 * Pow10(|init| - |t|);
      MulTen(DigitsValue(t), Pow10(|init| - |t|));
    }
  }

  // ----- the dot -----

  lemma {:induction false} SplitAtDotNone(s: string)
    requires AllDigits(s)
    ensures SplitAtDot(s) == None
  {
    if s != [] {
      SplitAtDotNone(s[1..]);
    }
  }

  lemma {:induction false} SplitAtDotDigits(whole: string, frac: string)
    requires AllDigits(whole)
    ensures SplitAtDot(whole + "." + frac) == Some((whole, frac))
  {
    if whole != [] {
      assert (whole + "." + frac)[1..] == whole[1..] + "." + frac;
      SplitAtDotDigits(whole[1..], frac);
      assert [whole[0]] + whole[1..] == whole;
    }
  }

  /** Digits, a dot and one to six digits parse as seconds and scaled microseconds. */
  lemma ParseDigitsDotDigits(whole: string, frac: string)
    requires whole != [] && AllDigits(whole) && AllDigits(frac) && 1 <= |frac| <= 6
    ensures ParseUnixMicros(whole + "." + frac).Some?
    ensures ParseUnixMicros(whole + "." + frac).value.seconds == DigitsValue(whole)
    ensures ParseUnixMicros(whole + "." + frac).value.micros == DigitsValue(frac) * Pow10(6 - |frac|)
  {
    SplitAtDotDigits(whole, frac);
  }

  // ----- the two renderings -----

  /**
   * The six-digit rendering always parses back to the creation time it was
   * written from.
   */
  lemma FixedMicroTextRoundTrip(t: Created)
    ensures ParseUnixMicros(FixedMicroText(t)) == Some(t)
  {
    DecimalTextValue(t.seconds);
    assert Pow10(6) == 1_000_000;
    FixedDigitsValue(t.micros, 6);
    ParseDigitsDotDigits(DecimalText(t.seconds), FixedDigits(t.micros, 6));
  }

  /** A whole second is written without a dot, and the parse fails. */
  lemma ExactDecimalTextWholeSecond(t: Created)
    requires t.micros == 0
    ensures ParseUnixMicros(ExactDecimalText(t)) == None
  {
    DecimalTextValue(t.seconds);
    SplitAtDotNone(DecimalText(t.seconds));
    assert ExactDecimalText(t) == DecimalText(t.seconds);
  }

  /**
   * In the exact decimal rendering, a non-zero fraction is written with a dot and
   * its significant digits, and parses back.
   */
  lemma ExactDecimalTextFraction(t: Created)
    requires t.micros != 0
    ensures ParseUnixMicros(ExactDecimalText(t)) == Some(t)
  {
    var whole := DecimalText(t.seconds);
    var digits := FixedDigits(t.micros, 6);
    var frac := TrimTrailingZeros(digits);
    assert ExactDecimalText(t) == whole + "." + frac;
    DecimalTextValue(t.seconds);
    assert Pow10(6) == 1_000_000;
    FixedDigitsValue(t.micros, 6);
    TrimTrailingZerosValue(digits);
    ParseDigitsDotDigits(whole, frac);
  }

  /**
   * The exact decimal rendering parses back to the creation time exactly when the
   * time has a non-zero fraction; a whole second yields no dot, and the parse fails.
   */
  lemma ExactDecimalTextParse(t: Created)
    ensures ParseUnixMicros(ExactDecimalText(t)) == if t.micros == 0 then None else Some(t)
  {
    if t.micros == 0 {
      ExactDecimalTextWholeSecond(t);
    } else {
      ExactDecimalTextFraction(t);
    }
  }

  /** With the six-digit rendering, `date` is always the record's own creation time. */
  lemma CreationDateOfFixedMicroText(t: Created, now: string, format: Created -> string)
    ensures CreationDate(FixedMicroText(t), now, format) == format(t)
  {
    FixedMicroTextRoundTrip(t);
  }

  /**
   * With the cast as written, a record created on a whole second is dated `now`;
   * PHP writes a whole second without a dot at any precision.
   */
  lemma CreationDateOfWholeSecond(seconds: nat, now: string, format: Created -> string)
    ensures CreationDate(ExactDecimalText(Created(seconds, 0)), now, format) == now
  {
    ExactDecimalTextParse(Created(seconds, 0));
  }
}

=== FILE: wrappers.dfy ===
/** Optional values, used for lookups that may miss and parses that may fail. */
module Wrappers {

  datatype Option<+T> = None | Some(value: T)
}
